=== FILE: README.md ===
# A verified model of the fibonacci / overlap / stats line interpreter

`main.py` is a small command interpreter. Each input line is a command and
its arguments, separated by single spaces. There are three commands:

- `fibonacci n` prints the Fibonacci numbers 0, 1, 1, 2, … up to `n`.
- `overlap a,b c,d …` prints whether any two of the intervals overlap.
- `stats` prints how many `fibonacci` and `overlap` commands came before it.

Every line is parsed before any command runs. Commands then run in order,
each producing one output line, and the lines are joined by newlines.

Failures fall into three tiers:

1. A bad argument value gives the literal output line `error`, and the run
   goes on.
2. A bad command shape raises `FibOverlapStatsException`. This covers an
   unknown name or a wrong argument count.
3. An `overlap` token with no comma whose text is an integer lets an
   `IndexError` escape.

Tiers 2 and 3 end the run with no output at all.

The Dafny modules follow the program's pipeline, one file each:

| module | file | what it holds |
|---|---|---|
| `Outcomes` | outcomes.dfy | `Outcome<T>` is `Ok(value)` or `Raised(exception)`. The exception is either `FibOverlapStatsException(reason)` or `IndexError`. |
| `Text` | text.dfy | Python's `split` and `join` for one separator, `str` of integers, and `int(s, 10)` restricted to a sign and ASCII digits. It also has the split/join round trips. |
| `Fibonacci` | fibonacci.dfy | `calculate_fibonacci`. The loop is both a method with invariants and a recursive function, and the two are proved equal. |
| `Overlap` | overlap.dfy | `calculate_overlap`: token parsing in the order main.py uses and the nested pair loops. It proves the answer does not depend on the order of the parsed intervals. |
| `Stats` | stats.dfy | `calculate_stats` |
| `Parser` | parser.dfy | `parse_input_into_commands` |
| `Serialize` | serialize.dfy | `serialize_fibonacci_result` and the overlap and stats output lines of `handle_commands` |
| `Dispatcher` | dispatcher.dfy | `handle_commands`: the fold over commands with its two counters |
| `Program` | program.dfy | `codeHere` without input acquisition: parse all lines, then handle them |
| `Scenarios` | scenarios.dfy | three whole runs worked out from the general lemmas |

In the model, the "error" marker is one variant of each evaluator's result
type: `FibonacciError` and `OverlapError`. The two exceptions are the
`Raised` side of `Outcome`, so `:-` gives the same abort-everything
behaviour as Python's propagation.

The counters are not threaded implicitly. `Tally(c, cmds)` gives the counters
after `cmds` in closed form: one more Fibonacci call per `fibonacci` command,
one more overlap call per `overlap` command.

## Model

| member | source | states |
|---|---|---|
| Text.Split | main.py:240 | `str.split(sep)` always gives at least one piece. No piece holds the separator. There is exactly one piece iff the separator does not occur. |
| Text.JoinSplit | main.py:240 | Joining the pieces of a split with the same separator gives back the original string. |
| Text.SplitJoin | main.py:341 | Splitting a join of one or more separator-free pieces recovers exactly those pieces. |
| Text.JoinAvoids | main.py:341 | A character that is not the separator and occurs in no piece does not occur in the join, so a `'\n'`-free line stays `'\n'`-free when joined with spaces. |
| Text.NatToString | main.py:276 | `str(n)` of a natural number is a non-empty run of decimal digits with no leading zero. |
| Text.IntToString | main.py:276 | `str(i)` is digits with a leading `-` exactly when `i` is negative. |
| Text.ParseInt | main.py:75 | `int(s, 10)` succeeds iff `s` is one or more digits, optionally after one `+` or `-`. Plain digits give a non-negative value, and a negative value needs a leading `-`. |
| Text.LeadingZeroOrPlusKeepsValue | main.py:75 | Plain digits read as their decimal value. A leading `0` or `+` does not change it, and a leading `-` negates it: `int("007") == int("+7") == 7`. |
| Text.ParseIntToString | main.py:75 | `int(str(i), 10) == i` for every integer `i`. |
| Fibonacci.PositiveAfterFirst | main.py:87-100 | Every term of the sequence after the leading 0 is at least 1. |
| Fibonacci.NonDecreasing | main.py:87-100 | The terms of the sequence never decrease. |
| Fibonacci.MaximalPrefixUnique | main.py:87-100 | For a given target there is at most one maximal prefix. A maximal prefix starts 0, 1, 1, each later term is the sum of the two before, all terms are at most the target, and the next sum exceeds it. |
| Fibonacci.Extend | main.py:89-100 | Appending sums while they stay within the target ends in the maximal prefix for that target. |
| Fibonacci.FibonacciUpTo | main.py:82-100 | For every target of at least 1, the result is the maximal Fibonacci prefix. Target 1 gives exactly `[0, 1, 1]`. |
| Fibonacci.ComputeFibonacci | main.py:82-100 | The `while True` loop ends with the maximal prefix for the target. It equals the recursive definition. |
| Fibonacci.CalculateFibonacci | main.py:59-108 | It is fatal iff the argument count is not 1, and the reason records the count. The result is the marker iff the one argument is not an integer or is below 1. Otherwise it is the maximal prefix for the parsed target. |
| Fibonacci.FibonacciOfOne | main.py:82-83 | `fibonacci 1` evaluates to `[0, 1, 1]`. |
| Fibonacci.FibonacciOfTwo | main.py:86-100 | `fibonacci 2` evaluates to `[0, 1, 1, 2]`. |
| Fibonacci.FibonacciRejects | main.py:61-79 | `0` and `abc` give the marker, and two arguments are fatal. |
| Overlap.TouchesMeansSharedPoint | main.py:158-163 | The pair test is symmetric, and for two intervals written low first it holds iff they share an integer point. |
| Overlap.InvertedIntervalTouches | main.py:158-163 | An inverted interval can pass the test though it holds no point: `0,10` against `5,3`. |
| Overlap.TouchesLater | main.py:154-170 | The inner loop, with its `break`, finds a hit iff some later interval touches the current one. |
| Overlap.ScanFrom | main.py:151-170 | The outer loop from position `i` finds a hit iff some pair `p < q` at or after `i` touches. |
| Overlap.AnyTouching | main.py:146-170 | The nested loops answer `true` iff some pair `i < j` of the unnormalised intervals satisfies `a.low <= b.high` and `a.high >= b.low`. |
| Overlap.TouchingPairIsOrderFree | main.py:146-170 | Whether a touching pair exists depends only on the multiset of intervals. |
| Overlap.AnyTouchingIgnoresOrder | main.py:146-170 | Reordering the parsed intervals does not change the overlap answer. |
| Overlap.ParseInterval | main.py:139-142 | A token raises iff it has no comma and its whole text is an integer, and then it raises `IndexError`. It gives the marker's `None` iff the first comma-separated piece is not an integer, or there is a comma and the second piece is not an integer. Otherwise the interval's low and high are the integer values of the first and second pieces. |
| Overlap.ParseFormattedInterval | main.py:139-142 | `low,high` parses back to the interval, and so does the same text followed by more comma-separated parts, which are ignored. |
| Overlap.ParseIntervals | main.py:137-143 | Tokens are converted in order. The only exception that can escape is `IndexError`. On success there is one interval per token, each the token's own parse. If every token converts, the whole conversion succeeds. |
| Overlap.FirstFailingTokenDecides | main.py:135-143 | The first token that fails to convert decides the outcome, whatever the later tokens hold. Its `ValueError` gives the marker and its `IndexError` escapes. |
| Overlap.CalculateOverlap | main.py:119-178 | It is fatal iff there are fewer than two arguments. Otherwise the only raise is `IndexError`, and it is raised whenever token conversion raises it. With all tokens converted the result is the pair test over them, and with a non-integer component it is the marker. |
| Overlap.OverlapOfTwo | main.py:146-170 | With two well-formed tokens, the answer is the pair test on those two intervals. |
| Overlap.OverlapExampleDisjoint | main.py:146-170 | `overlap 1,5 6,10` is `false`. |
| Overlap.OverlapExampleOverlapping | main.py:146-170 | `overlap 1,5 4,10` is `true`. |
| Overlap.ArgumentOrderMattersForBadTokens | main.py:135-143 | With bad tokens the argument order matters: `5 x,1` raises `IndexError`, `x,1 5` gives the marker. |
| Overlap.OverlapRejects | main.py:121-174 | One argument is fatal, and `1,2 x,3` gives the marker. |
| Stats.CalculateStats | main.py:190-207 | It succeeds iff there are no arguments, and any argument is fatal. On success it passes both counters through unchanged. |
| Parser.ParseLine | main.py:240-263 | An accepted line has a known name. Name and arguments hold no space, and joining them with spaces gives the line back. A rejected line raises "not recognized" for a name outside the three. |
| Parser.ParseUnparse | main.py:240-263 | The text of a space-free command parses back to that command when its name is known. Otherwise it is rejected with exactly that name. |
| Parser.BlankLineIsUnknownCommand | main.py:240-263 | An empty line is rejected as the unknown command name `""`. |
| Parser.ParseLines | main.py:239-267 | Parsing succeeds iff every line parses. It gives one command per line, in order. Any failure is an unknown command name. |
| Parser.FirstBadLineDecides | main.py:239-263 | The first line that fails decides the error, whatever the later lines hold. |
| Serialize.TermStrings | main.py:276 | Each term becomes its canonical decimal string: digits with no leading zero (except `0` itself), which `int` reads back as that term. |
| Serialize.TermsLineIsNotMarker | main.py:276-277 | No list of terms prints as `error`: the empty list prints as the empty line, any other begins with a digit. |
| Serialize.SerializeFibonacci | main.py:270-279 | The line is `error` iff the result is the marker, and it contains no newline. |
| Serialize.SerializedTermsRoundTrip | main.py:276-277 | Splitting a term line on spaces gives back exactly the terms' decimal strings, one per term, and each reads back as its term. |
| Serialize.SerializeOverlap | main.py:316-318 | The overlap line is `true`, `false` or `error`, each exactly when the result is true, false or the marker. |
| Serialize.SerializeStats | main.py:327-330 | The stats line splits on its space into the two counts in decimal and contains no newline. |
| Serialize.SerializedStatsRoundTrip | main.py:327-330 | Reading the two pieces of a stats line gives back the two counts. |
| Dispatcher.TallyOne | main.py:298-311 | One command adds one to the Fibonacci count iff it is `fibonacci`, and one to the overlap count iff it is `overlap`. |
| Dispatcher.HandleFibonacci | main.py:298-308 | The `fibonacci` branch succeeds iff there is one argument. It counts the call whatever the result, its line has no newline, and it raises only the argument-count error. |
| Dispatcher.HandleFibonacciLine | main.py:300-308 | When the `fibonacci` branch succeeds, its evaluator succeeds too, and the line is that result serialized. |
| Dispatcher.HandleOverlap | main.py:310-318 | The `overlap` branch raises iff its evaluator raises, with the same exception. It counts the call and its line has no newline. |
| Dispatcher.HandleOverlapLine | main.py:312-318 | When the `overlap` branch succeeds, its line is the evaluator's result as `true`, `false` or `error`. |
| Dispatcher.HandleStats | main.py:320-332 | The `stats` branch succeeds iff there are no arguments. It prints the current counters and leaves them unchanged. |
| Dispatcher.HandleCommand | main.py:296-339 | Routing one command: the counters after it are `Tally` of it, and the line has no newline. The fall-through raise happens iff the name is none of the three. Every raise is one of the listed causes. |
| Dispatcher.HandleCommandRoutes | main.py:296-332 | Each known name reaches its own evaluator. A `fibonacci` command succeeds iff it has one argument, and its line is `SerializeFibonacci` of `CalculateFibonacci`. An `overlap` command succeeds iff `CalculateOverlap` does not raise, and its line is `SerializeOverlap` of that result. A `stats` command succeeds iff it has no argument. |
| Dispatcher.CountersOnlyGrow | main.py:292-332 | Each command raises each counter by at most one and never lowers it, and `stats` leaves both unchanged. |
| Dispatcher.TallySteps | main.py:292-311 | Counting the first command and then a prefix of the rest is counting the longer prefix, so the counters carried through the loop are `Tally` of the commands so far. |
| Dispatcher.HandleAll | main.py:296-339 | A successful fold gives one newline-free line per command. |
| Dispatcher.HandleAllLineByLine | main.py:292-339 | The fold succeeds iff each command succeeds when given the counts of the commands before it. Its lines are exactly those commands' lines. A raise is some command's raise. |
| Dispatcher.OutputSplitsIntoLines | main.py:282-344 | `HandleCommands`, the whole of `handle_commands`: splitting its joined output on newlines recovers exactly the per-command lines. |
| Dispatcher.StatsReportsEarlierCalls | main.py:292-332 | The output line of a `stats` command is the count of `fibonacci` and of `overlap` commands strictly before it. |
| Dispatcher.FibonacciLineReportsTerms | main.py:298-308 | In a successful run, the output line of a `fibonacci` command is its evaluator's result serialized: the terms up to its target, or `error`. |
| Dispatcher.OverlapLineReportsResult | main.py:310-318 | In a successful run, the output line of an `overlap` command is its evaluator's result serialized: `true`, `false` or `error`. |
| Dispatcher.KnownNamesAreAlwaysRouted | main.py:334-339 | Commands with known names never reach the fall-through raise. |
| Program.RunOutputLines | main.py:347-366 | `Run`, which is `codeHere` without input and printing: a successful run over one or more lines outputs one line per input line, in order. Each is that command's line given the commands before it. |
| Program.ParsingPrecedesHandling | main.py:358-362 | A line with an unknown name ends the run with its own error, even when an earlier command would have raised while being handled. |
| Program.RunNeverReachesFallThrough | main.py:334-339 | No input at all makes the dispatcher's fall-through branch raise. |
| Program.RunNeverReportsBlankLine | main.py:242-248 | No input at all reaches the "Line is blank." raise. |
| Scenarios.RunFibonacciThenStats | main.py:347-366 | The input `fibonacci 1` then `stats` outputs `0 1 1` and `1 0`. |
| Scenarios.RunMarkerStillCounted | main.py:347-366 | The input `fibonacci abc` then `stats` outputs `error` and `1 0`, so a marker result still counts as a call. |
| Scenarios.RunFatalArgumentCountEmptiesOutput | main.py:320-325 | The input `fibonacci 1` then `stats 5` raises the `stats` argument-count error, and the first command's line is not output. |

## Behaviour of main.py worth knowing

- **Missing comma.** A token with no comma reaches `split_range[1]` only after `int(split_range[0])` has succeeded. So `5` raises `IndexError`, but `x` takes the `ValueError` path and gives the marker. The model keeps this order (`Overlap.ParseInterval`), and the first failing token decides.
- **Blank line.** `''.split(' ')` is `['']`, never an empty list. A blank line is therefore rejected as the unknown command `""` (main.py:259-263), and the "Line is blank." branch (main.py:244-248) is dead. The model keeps the `BlankLine` reason only to state that it is never raised.
- **Pair test.** The pair test is `a.low <= b.high && a.high >= b.low` on intervals exactly as parsed, inverted ones included. The model does not normalise them.
- **Argument order.** The answer for well-formed tokens does not depend on their order, but the outcome for bad tokens does: the first failing token decides. So `overlap 5 x,1` raises `IndexError`, while `overlap x,1 5` prints `error` (`Overlap.ArgumentOrderMattersForBadTokens`).

## Left out

- Input acquisition and printing are not modelled. This covers `resolve_input`, `fileinput.input` and `print(codeHere())` (main.py:210-224, 369). The model's input is the sequence of lines, without line terminators. Lines read through `fileinput` keep their `\n`, so `stats\n` would be rejected as an unknown name. The model does not cover that.
- The empty input is not modelled as main.py runs it. `resolve_input` treats an empty list as absent and reads standard input instead (main.py:218). `Program.Run([])` returns the empty output.
- Logging (`_logger`) has no effect on results and is left out.
- Text.ParseInt does not model all of Python's `int(s, 10)`. It accepts an optional `+` or `-` followed by ASCII digits, with leading zeros allowed, and sends everything else down the `ValueError` path. Python also accepts surrounding whitespace, underscores between digits and non-ASCII digits. CPython also limits decimal conversion to 4300 digits by default (`sys.get_int_max_str_digits()`, from 3.11 and the 3.7-3.10 security releases), so a longer digit string takes the `ValueError` path there and gives the marker; the model reads it as its unbounded value instead. `str()` of a printed term cannot reach that limit, since every term is at most an already-parsed target, and a printed count would need more than 10^4299 earlier commands.
- Exception messages are not modelled. The model keeps each message's subject as a `Reason` variant: which command, and the argument count or the rejected name. It does not keep the formatted text with its Python list reprs.
- `Program.Run` composes the parser with the recursive `Fibonacci.FibonacciUpTo`. The loop version, `Fibonacci.ComputeFibonacci`, is proved equal to it rather than called.
- Python's dynamic typing of the results (`isinstance(fibonacci_result, str)`) becomes a sum type. There is no separate string-typed marker.

=== FILE: dispatcher.dfy ===
/** The dispatcher: runs the parsed commands in order, keeps the two call
    counters, turns each result into one output line and joins the lines.
 */
module Dispatcher {
  import opened Outcomes
  import opened Text
  import opened Parser
  import opened Fibonacci
  import opened Overlap
  import opened Stats
  import opened Serialize

  datatype Counters = Counters(fibonacciCalls: nat, overlapCalls: nat)

  lemma NamesDistinct()
    ensures FibonacciName != OverlapName && FibonacciName != StatsName && OverlapName != StatsName
  {
    assert FibonacciName[0] == 'f' && OverlapName[0] == 'o' && StatsName[0] == 's';
  }

  /** How many of the commands have the given name. */
  function CountNamed(cmds: seq<Command>, name: string): nat
    decreases |cmds|
  {
    if |cmds| == 0 then 0
    else (if cmds[0].name == name then 1 else 0) + CountNamed(cmds[1..], name)
  }

  /** The counters after the given commands, starting from `c`: one more
      Fibonacci call per `fibonacci` command, one more overlap call per
      `overlap` command, whatever their outcome. */
  function Tally(c: Counters, cmds: seq<Command>): Counters {
    Counters(c.fibonacciCalls + CountNamed(cmds, FibonacciName),
             c.overlapCalls + CountNamed(cmds, OverlapName))
  }

  /** Counting one command. */
  lemma TallyOne(c: Counters, cmd: Command)
    ensures Tally(c, [cmd]) ==
              Counters(c.fibonacciCalls + (if cmd.name == FibonacciName then 1 else 0),
                       c.overlapCalls + (if cmd.name == OverlapName then 1 else 0))
  {
    assert [cmd][1..] == [];
    assert CountNamed([cmd], FibonacciName) == (if cmd.name == FibonacciName then 1 else 0) + CountNamed([], FibonacciName);
    assert CountNamed([cmd], OverlapName) == (if cmd.name == OverlapName then 1 else 0) + CountNamed([], OverlapName);
  }

  /** The `fibonacci` branch: evaluate, serialize, count one Fibonacci call. */
  function HandleFibonacci(args: seq<string>, c: Counters): (r: Outcome<(string, Counters)>)
    ensures |args| == 1 ==> r.Ok?
    ensures r.Ok? ==> '\n' !in r.value.0 && r.value.1 == Counters(c.fibonacciCalls + 1, c.overlapCalls)
    ensures r.Raised? ==> |args| != 1 && RaisedFor(r, FibonacciArgCount(|args|))
  {
    var result :- CalculateFibonacci(args);
    Ok((SerializeFibonacci(result), Counters(c.fibonacciCalls + 1, c.overlapCalls)))
  }

  /** The line of a successful `fibonacci` branch is its evaluator's result,
      serialized. */
  lemma HandleFibonacciLine(args: seq<string>, c: Counters)
    ensures HandleFibonacci(args, c).Ok? ==>
              CalculateFibonacci(args).Ok? &&
              HandleFibonacci(args, c).value.0 == SerializeFibonacci(CalculateFibonacci(args).value)
  {
  }

  /** The `overlap` branch: evaluate, serialize, count one overlap call. */
  function HandleOverlap(args: seq<string>, c: Counters): (r: Outcome<(string, Counters)>)
    ensures r.Raised? <==> CalculateOverlap(args).Raised?
    ensures r.Raised? ==> r.exception == CalculateOverlap(args).exception
    ensures r.Ok? ==> '\n' !in r.value.0 && r.value.1 == Counters(c.fibonacciCalls, c.overlapCalls + 1)
    ensures r.Raised? ==> RaisedFor(r, OverlapArgCount(|args|)) || r.exception == IndexError
  {
    var result :- CalculateOverlap(args);
    Ok((SerializeOverlap(result), Counters(c.fibonacciCalls, c.overlapCalls + 1)))
  }

  /** The line of a successful `overlap` branch is its evaluator's result,
      serialized. */
  lemma HandleOverlapLine(args: seq<string>, c: Counters)
    ensures HandleOverlap(args, c).Ok? ==>
              CalculateOverlap(args).Ok? &&
              HandleOverlap(args, c).value.0 == SerializeOverlap(CalculateOverlap(args).value)
  {
  }

  /** The `stats` branch: report the counters, leave them unchanged. */
  function HandleStats(args: seq<string>, c: Counters): (r: Outcome<(string, Counters)>)
    ensures |args| == 0 ==> r.Ok?
    ensures r.Ok? ==> r.value == (SerializeStats(StatsResult(c.fibonacciCalls, c.overlapCalls)), c)
    ensures r.Ok? ==> '\n' !in r.value.0
    ensures r.Raised? ==> |args| != 0 && RaisedFor(r, StatsArgCount(|args|))
  {
    var result :- CalculateStats(args, c.fibonacciCalls, c.overlapCalls);
    Ok((SerializeStats(result), c))
  }

  /** One command: route it by name, count it, serialize its result. A name
      outside the three raises, though the parser never lets one through. */
  function HandleCommand(cmd: Command, c: Counters): (r: Outcome<(string, Counters)>)
    ensures r.Ok? ==> '\n' !in r.value.0
    ensures r.Ok? ==> r.value.1 == Tally(c, [cmd])
    ensures (r.Raised? && r.exception.FibOverlapStatsException? && r.exception.reason.UnknownParsedCommand?)
              <==> cmd.name !in CommandNames
    ensures r.Raised? ==>
              || r.exception == IndexError
              || r.exception.reason.FibonacciArgCount?
              || r.exception.reason.OverlapArgCount?
              || r.exception.reason.StatsArgCount?
              || r.exception.reason.UnknownParsedCommand?
    ensures r.Ok? && cmd.name == StatsName ==>
              |cmd.args| == 0 && r.value.0 == SerializeStats(StatsResult(c.fibonacciCalls, c.overlapCalls))
  {
    TallyOne(c, cmd);
    NamesDistinct();
    if cmd.name == FibonacciName then HandleFibonacci(cmd.args, c)
    else if cmd.name == OverlapName then HandleOverlap(cmd.args, c)
    else if cmd.name == StatsName then HandleStats(cmd.args, c)
    else Fatal(UnknownParsedCommand(cmd.name))
  }

  /** Each known name is routed to its own evaluator, and its line is that
      evaluator's result serialized: a `fibonacci` command succeeds iff it
      has one argument, an `overlap` command iff its evaluator does not
      raise, a `stats` command iff it has no argument. */
  lemma HandleCommandRoutes(cmd: Command, c: Counters)
    ensures cmd.name == FibonacciName ==>
              (HandleCommand(cmd, c).Ok? <==> |cmd.args| == 1) &&
              (HandleCommand(cmd, c).Ok? ==>
                 HandleCommand(cmd, c).value.0 == SerializeFibonacci(CalculateFibonacci(cmd.args).value))
    ensures cmd.name == OverlapName ==>
              (HandleCommand(cmd, c).Ok? <==> CalculateOverlap(cmd.args).Ok?) &&
              (HandleCommand(cmd, c).Ok? ==>
                 HandleCommand(cmd, c).value.0 == SerializeOverlap(CalculateOverlap(cmd.args).value))
    ensures cmd.name == OverlapName && HandleCommand(cmd, c).Raised? ==>
              HandleCommand(cmd, c).exception == CalculateOverlap(cmd.args).exception
    ensures cmd.name == StatsName ==> (HandleCommand(cmd, c).Ok? <==> |cmd.args| == 0)
  {
    NamesDistinct();
    HandleFibonacciLine(cmd.args, c);
    HandleOverlapLine(cmd.args, c);
  }

  /** Handling a command never lowers a counter, and `stats` leaves both
      unchanged. */
  lemma CountersOnlyGrow(cmd: Command, c: Counters)
    ensures HandleCommand(cmd, c).Ok? ==>
              c.fibonacciCalls <= HandleCommand(cmd, c).value.1.fibonacciCalls <= c.fibonacciCalls + 1
    ensures HandleCommand(cmd, c).Ok? ==>
              c.overlapCalls <= HandleCommand(cmd, c).value.1.overlapCalls <= c.overlapCalls + 1
    ensures HandleCommand(cmd, c).Ok? && cmd.name == StatsName ==> HandleCommand(cmd, c).value.1 == c
  {
    TallyOne(c, cmd);
    NamesDistinct();
  }

  /** All commands in order from counters `c`; the first one that raises
      ends the run with nothing output. */
  function HandleAll(cmds: seq<Command>, c: Counters): (r: Outcome<seq<string>>)
    ensures r.Ok? ==> |r.value| == |cmds|
    ensures r.Ok? ==> forall k :: 0 <= k < |r.value| ==> '\n' !in r.value[k]
    decreases |cmds|
  {
    if |cmds| == 0 then Ok([])
    else
      var (line, next) :- HandleCommand(cmds[0], c);
      var rest :- HandleAll(cmds[1..], next);
      Ok([line] + rest)
  }

  /** Counting a first command and then a prefix of the rest is counting
      the longer prefix. */
  lemma TallySteps(c: Counters, cmds: seq<Command>, k: nat)
    requires 0 <= k < |cmds|
    ensures Tally(Tally(c, [cmds[0]]), cmds[1..][..k]) == Tally(c, cmds[..k + 1])
  {
    var prefix := cmds[..k + 1];
    assert prefix[0] == cmds[0];
    assert prefix[1..] == cmds[1..][..k];
    assert [cmds[0]][1..] == [];
    assert CountNamed(prefix, FibonacciName) ==
           CountNamed([cmds[0]], FibonacciName) + CountNamed(cmds[1..][..k], FibonacciName);
    assert CountNamed(prefix, OverlapName) ==
           CountNamed([cmds[0]], OverlapName) + CountNamed(cmds[1..][..k], OverlapName);
  }

  /** The counters handed to each later command: after a successful first
      command, position `k` of the rest sees `Tally` of the first `k + 1`. */
  lemma {:induction false} TailCounters(cmds: seq<Command>, c: Counters)
    requires |cmds| > 0 && HandleCommand(cmds[0], c).Ok?
    ensures forall k :: 0 <= k < |cmds| - 1 ==>
              cmds[1..][k] == cmds[k + 1] &&
              Tally(HandleCommand(cmds[0], c).value.1, cmds[1..][..k]) == Tally(c, cmds[..k + 1])
  {
    forall k | 0 <= k < |cmds| - 1
      ensures Tally(HandleCommand(cmds[0], c).value.1, cmds[1..][..k]) == Tally(c, cmds[..k + 1])
    {
      TallySteps(c, cmds, k);
    }
  }

  /** The fold succeeds exactly when each command, given the counts of the
      commands before it, succeeds, and its lines are those commands' lines. */
  lemma {:induction false} HandleAllSucceedsLineByLine(cmds: seq<Command>, c: Counters)
    ensures HandleAll(cmds, c).Ok? <==>
              forall k :: 0 <= k < |cmds| ==> HandleCommand(cmds[k], Tally(c, cmds[..k])).Ok?
    ensures HandleAll(cmds, c).Ok? ==>
              forall k :: 0 <= k < |cmds| ==>
                HandleAll(cmds, c).value[k] == HandleCommand(cmds[k], Tally(c, cmds[..k])).value.0
    decreases |cmds|
  {
    if |cmds| > 0 {
      assert cmds[..0] == [];
      assert Tally(c, []) == c;
      if HandleCommand(cmds[0], c).Ok? {
        var next := HandleCommand(cmds[0], c).value.1;
        var tail := cmds[1..];
        HandleAllSucceedsLineByLine(tail, next);
        TailCounters(cmds, c);
        if forall k :: 0 <= k < |cmds| ==> HandleCommand(cmds[k], Tally(c, cmds[..k])).Ok? {
          forall k | 0 <= k < |tail|
            ensures HandleCommand(tail[k], Tally(next, tail[..k])).Ok?
          {
            assert HandleCommand(cmds[k + 1], Tally(c, cmds[..k + 1])).Ok?;
          }
        }
      }
    }
  }

  /** When the fold raises, some command, given the counts of the commands
      before it, raised that exception. */
  lemma {:induction false} HandleAllRaisesLineByLine(cmds: seq<Command>, c: Counters)
    ensures HandleAll(cmds, c).Raised? ==>
              exists k :: 0 <= k < |cmds| &&
                HandleCommand(cmds[k], Tally(c, cmds[..k])) == Raised(HandleAll(cmds, c).exception)
    decreases |cmds|
  {
    if |cmds| > 0 && HandleAll(cmds, c).Raised? {
      assert cmds[..0] == [];
      assert Tally(c, []) == c;
      if HandleCommand(cmds[0], c).Ok? {
        var next := HandleCommand(cmds[0], c).value.1;
        var tail := cmds[1..];
        HandleAllRaisesLineByLine(tail, next);
        TailCounters(cmds, c);
        var k :| 0 <= k < |tail| &&
          HandleCommand(tail[k], Tally(next, tail[..k])) == Raised(HandleAll(cmds, c).exception);
        assert HandleCommand(cmds[k + 1], Tally(c, cmds[..k + 1])) == Raised(HandleAll(cmds, c).exception);
      }
    }
  }

  /** The run succeeds exactly when each command, given the counts of the
      commands before it, succeeds; its lines are those commands' lines; and
      when it raises, some command raised that exception. */
  lemma {:induction false} HandleAllLineByLine(cmds: seq<Command>, c: Counters)
    ensures HandleAll(cmds, c).Ok? <==>
              forall k :: 0 <= k < |cmds| ==> HandleCommand(cmds[k], Tally(c, cmds[..k])).Ok?
    ensures HandleAll(cmds, c).Ok? ==>
              forall k :: 0 <= k < |cmds| ==>
                HandleAll(cmds, c).value[k] == HandleCommand(cmds[k], Tally(c, cmds[..k])).value.0
    ensures HandleAll(cmds, c).Raised? ==>
              exists k :: 0 <= k < |cmds| &&
                HandleCommand(cmds[k], Tally(c, cmds[..k])) == Raised(HandleAll(cmds, c).exception)
  {
    HandleAllSucceedsLineByLine(cmds, c);
    HandleAllRaisesLineByLine(cmds, c);
  }

  /** The whole dispatch: counters from zero, lines joined by newlines. */
  function HandleCommands(cmds: seq<Command>): (r: Outcome<string>)
  {
    var lines :- HandleAll(cmds, Counters(0, 0));
    Ok(Join(lines, '\n'))
  }

  /** Splitting the output on newlines gives back one line per command. */
  lemma OutputSplitsIntoLines(cmds: seq<Command>)
    requires |cmds| >= 1 && HandleCommands(cmds).Ok?
    ensures |Split(HandleCommands(cmds).value, '\n')| == |cmds|
    ensures Split(HandleCommands(cmds).value, '\n') == HandleAll(cmds, Counters(0, 0)).value
  {
    var lines := HandleAll(cmds, Counters(0, 0)).value;
    SplitJoin(lines, '\n');
  }

  /** A `stats` line reports the `fibonacci` and `overlap` commands strictly
      before it, those that gave the marker included. */
  lemma StatsReportsEarlierCalls(cmds: seq<Command>, k: nat)
    requires k < |cmds| && cmds[k].name == StatsName
    requires HandleCommands(cmds).Ok?
    ensures k < |Split(HandleCommands(cmds).value, '\n')| &&
            Split(HandleCommands(cmds).value, '\n')[k] ==
              NatToString(CountNamed(cmds[..k], FibonacciName)) + " " +
              NatToString(CountNamed(cmds[..k], OverlapName))
  {
    OutputSplitsIntoLines(cmds);
    HandleAllLineByLine(cmds, Counters(0, 0));
    var before := Tally(Counters(0, 0), cmds[..k]);
    var line := SerializeStats(StatsResult(before.fibonacciCalls, before.overlapCalls));
    assert line == NatToString(before.fibonacciCalls) + " " + NatToString(before.overlapCalls);
  }

  /** The output line of a `fibonacci` command is its evaluator's result,
      serialized: the terms up to its target, or `error`. */
  lemma FibonacciLineReportsTerms(cmds: seq<Command>, k: nat)
    requires k < |cmds| && cmds[k].name == FibonacciName
    requires HandleCommands(cmds).Ok?
    ensures CalculateFibonacci(cmds[k].args).Ok?
    ensures k < |Split(HandleCommands(cmds).value, '\n')| &&
            Split(HandleCommands(cmds).value, '\n')[k] == SerializeFibonacci(CalculateFibonacci(cmds[k].args).value)
  {
    OutputSplitsIntoLines(cmds);
    HandleAllLineByLine(cmds, Counters(0, 0));
    var before := Tally(Counters(0, 0), cmds[..k]);
    HandleCommandRoutes(cmds[k], before);
  }

  /** The output line of an `overlap` command is its evaluator's result,
      serialized: `true`, `false` or `error`. */
  lemma OverlapLineReportsResult(cmds: seq<Command>, k: nat)
    requires k < |cmds| && cmds[k].name == OverlapName
    requires HandleCommands(cmds).Ok?
    ensures CalculateOverlap(cmds[k].args).Ok?
    ensures k < |Split(HandleCommands(cmds).value, '\n')| &&
            Split(HandleCommands(cmds).value, '\n')[k] == SerializeOverlap(CalculateOverlap(cmds[k].args).value)
  {
    OutputSplitsIntoLines(cmds);
    HandleAllLineByLine(cmds, Counters(0, 0));
    var before := Tally(Counters(0, 0), cmds[..k]);
    HandleCommandRoutes(cmds[k], before);
  }

  /** Commands whose names are all known never reach the dispatcher's
      fall-through branch. */
  lemma {:induction false} KnownNamesAreAlwaysRouted(cmds: seq<Command>, c: Counters)
    requires forall k :: 0 <= k < |cmds| ==> cmds[k].name in CommandNames
    ensures !(HandleAll(cmds, c).Raised? &&
              HandleAll(cmds, c).exception.FibOverlapStatsException? &&
              HandleAll(cmds, c).exception.reason.UnknownParsedCommand?)
  {
    HandleAllLineByLine(cmds, c);
  }
}

=== FILE: fibonacci.dfy ===
/** The `fibonacci` command: the Fibonacci numbers 0, 1, 1, 2, 3, 5, ... up to
    and including the largest one not above a target.
 */
module Fibonacci {
  import opened Outcomes
  import opened Text

  /** Either the list of terms, or the "error" marker. */
  datatype FibonacciResult = Terms(terms: seq<nat>) | FibonacciError

  /** `s` begins 0, 1, 1 and every later term is the sum of the two before. */
  predicate IsFibonacciPrefix(s: seq<nat>) {
    && |s| >= 3
    && s[0] == 0 && s[1] == 1 && s[2] == 1
    && forall k :: 2 <= k < |s| ==> s[k] == s[k - 2] + s[k - 1]
  }

  predicate AllAtMost(s: seq<nat>, bound: int) {
    forall k :: 0 <= k < |s| ==> s[k] <= bound
  }

  /** `s` is the Fibonacci prefix with no term above `target` that cannot be
      extended: the next term would exceed `target`. */
  predicate IsMaximalPrefix(s: seq<nat>, target: int) {
    && IsFibonacciPrefix(s)
    && AllAtMost(s, target)
    && s[|s| - 2] + s[|s| - 1] > target
  }

  /** Every term after the first is positive. */
  lemma {:induction false} PositiveAfterFirst(s: seq<nat>)
    requires IsFibonacciPrefix(s)
    ensures forall k :: 1 <= k < |s| ==> s[k] >= 1
    decreases |s|
  {
    if |s| > 3 {
      var t := s[..|s| - 1];
      assert IsFibonacciPrefix(t) by {
        forall k | 2 <= k < |t|
          ensures t[k] == t[k - 2] + t[k - 1]
        {
          assert s[k] == s[k - 2] + s[k - 1];
        }
      }
      PositiveAfterFirst(t);
      assert s[|s| - 2] == t[|t| - 1];
      assert s[|s| - 1] == s[|s| - 3] + s[|s| - 2];
    }
  }

  /** The terms never decrease. */
  lemma {:induction false} NonDecreasing(s: seq<nat>)
    requires IsFibonacciPrefix(s)
    ensures forall i, j :: 0 <= i <= j < |s| ==> s[i] <= s[j]
  {
    forall i, j | 0 <= i <= j < |s|
      ensures s[i] <= s[j]
    {
      var k := i;
      while k < j
        invariant i <= k <= j
        invariant s[i] <= s[k]
      {
        if k + 1 >= 2 {
          assert s[k + 1] == s[k - 1] + s[k];
        }
        k := k + 1;
      }
    }
  }

  /** Two Fibonacci prefixes agree where both are defined. */
  lemma {:induction false} PrefixesAgree(s: seq<nat>, t: seq<nat>, n: nat)
    requires IsFibonacciPrefix(s) && IsFibonacciPrefix(t)
    requires n <= |s| && n <= |t|
    ensures s[..n] == t[..n]
    decreases n
  {
    if n > 3 {
      PrefixesAgree(s, t, n - 1);
      assert s[n - 1] == s[n - 3] + s[n - 2];
      assert t[n - 1] == t[n - 3] + t[n - 2];
      assert s[..n] == s[..n - 1] + [s[n - 1]];
      assert t[..n] == t[..n - 1] + [t[n - 1]];
    } else {
      assert s[..n] == [0, 1, 1][..n];
      assert t[..n] == [0, 1, 1][..n];
    }
  }

  /** A longer Fibonacci prefix continues a maximal one with a term above
      the target. */
  lemma NextTermExceeds(s: seq<nat>, t: seq<nat>, target: int)
    requires IsMaximalPrefix(s, target) && IsFibonacciPrefix(t)
    requires |s| < |t|
    ensures t[|s|] > target
  {
    PrefixesAgree(s, t, |s|);
    assert t[|s|] == t[|s| - 2] + t[|s| - 1];
    assert t[|s| - 2] == s[|s| - 2] && t[|s| - 1] == s[|s| - 1];
  }

  /** For each target there is at most one maximal prefix. */
  lemma MaximalPrefixUnique(s: seq<nat>, t: seq<nat>, target: int)
    requires IsMaximalPrefix(s, target) && IsMaximalPrefix(t, target)
    ensures s == t
  {
    if |s| < |t| {
      NextTermExceeds(s, t, target);
      assert false;
    } else if |t| < |s| {
      NextTermExceeds(t, s, target);
      assert false;
    } else {
      PrefixesAgree(s, t, |s|);
    }
  }

  /** Appends sums of the last two terms while they stay within `target`. */
  function Extend(s: seq<nat>, target: int): (r: seq<nat>)
    requires IsFibonacciPrefix(s) && AllAtMost(s, target)
    ensures IsMaximalPrefix(r, target)
    decreases target - s[|s| - 1]
  {
    PositiveAfterFirst(s);
    var next := s[|s| - 2] + s[|s| - 1];
    if next <= target then
      AppendNext(s, target);
      Extend(s + [next], target)
    else s
  }

  /** Appending the next term keeps a prefix, and keeps it within a bound
      the next term respects. */
  lemma AppendNext(s: seq<nat>, target: int)
    requires IsFibonacciPrefix(s) && AllAtMost(s, target)
    requires s[|s| - 2] + s[|s| - 1] <= target
    ensures IsFibonacciPrefix(s + [s[|s| - 2] + s[|s| - 1]])
    ensures AllAtMost(s + [s[|s| - 2] + s[|s| - 1]], target)
  {
    var t := s + [s[|s| - 2] + s[|s| - 1]];
    forall k | 2 <= k < |t|
      ensures t[k] == t[k - 2] + t[k - 1]
    {
      if k < |s| {
        assert t[k] == s[k] && t[k - 1] == s[k - 1] && t[k - 2] == s[k - 2];
      }
    }
  }

  /** The Fibonacci numbers up to `target`, starting 0, 1, 1. */
  function FibonacciUpTo(target: int): (r: seq<nat>)
    requires target >= 1
    ensures IsMaximalPrefix(r, target)
  {
    if target == 1 then [0, 1, 1]
    else Extend([0, 1, 1], target)
  }

  /** The loop of main.py: start from [0, 1, 1] and append the sum of the last
      two terms until that sum exceeds the target. */
  method ComputeFibonacci(target: int) returns (result: seq<nat>)
    requires target >= 1
    ensures IsMaximalPrefix(result, target)
    ensures result == FibonacciUpTo(target)
  {
    result := [0, 1, 1];
    if target == 1 {
      return;
    }
    while true
      invariant IsFibonacciPrefix(result)
      invariant AllAtMost(result, target)
      decreases target - result[|result| - 1]
    {
      PositiveAfterFirst(result);
      var next := result[|result| - 2] + result[|result| - 1];
      if next <= target {
        result := result + [next];
      } else {
        break;
      }
    }
    MaximalPrefixUnique(result, FibonacciUpTo(target), target);
  }

  /** The `fibonacci` evaluator: exactly one argument, an integer of at least
      one; a wrong count is fatal, a bad or too small number is the marker. */
  function CalculateFibonacci(args: seq<string>): (r: Outcome<FibonacciResult>)
    ensures r.Raised? <==> |args| != 1
    ensures r.Raised? ==> RaisedFor(r, FibonacciArgCount(|args|))
    ensures r == Ok(FibonacciError) <==>
              |args| == 1 && (ParseInt(args[0]).None? || ParseInt(args[0]).value < 1)
    ensures r.Ok? && r.value.Terms? ==>
              ParseInt(args[0]).Some? && IsMaximalPrefix(r.value.terms, ParseInt(args[0]).value)
  {
    if |args| != 1 then Fatal(FibonacciArgCount(|args|))
    else
      match ParseInt(args[0])
      case None => Ok(FibonacciError)
      case Some(target) =>
        if target < 1 then Ok(FibonacciError)
        else Ok(Terms(FibonacciUpTo(target)))
  }

  /** Target 1 gives 0, 1, 1. */
  lemma FibonacciOfOne()
    ensures CalculateFibonacci(["1"]) == Ok(Terms([0, 1, 1]))
  {
    assert ParseInt("1") == Some(1) by { assert DigitsValue("1") == 1; }
  }

  /** Target 2 gives 0, 1, 1, 2: the sequence always begins 0, 1, 1. */
  lemma FibonacciOfTwo()
    ensures CalculateFibonacci(["2"]) == Ok(Terms([0, 1, 1, 2]))
  {
    assert ParseInt("2") == Some(2) by { assert DigitsValue("2") == 2; }
    assert FibonacciUpTo(2) == [0, 1, 1, 2] by {
      var s2: seq<nat> := [0, 1, 1, 2];
      assert IsMaximalPrefix(s2, 2);
      MaximalPrefixUnique(s2, FibonacciUpTo(2), 2);
    }
  }

  /** Zero and a word give the marker; two arguments are fatal. */
  lemma FibonacciRejects()
    ensures CalculateFibonacci(["0"]) == Ok(FibonacciError)
    ensures CalculateFibonacci(["abc"]) == Ok(FibonacciError)
    ensures RaisedFor(CalculateFibonacci(["1", "2"]), FibonacciArgCount(2))
  {
    assert ParseInt("0") == Some(0) by { assert DigitsValue("0") == 0; }
    assert !IsDigit('a');
  }
}

=== FILE: outcomes.dfy ===
/** The three outcome tiers of the interpreter.

    A command either produces a value (which may itself be the "error"
    marker, see the evaluator result types), raises the interpreter's own
    fatal exception, or lets a Python IndexError escape uncaught.  Both kinds
    of exception abort the whole run, so they share one failure type here.
 */
module Outcomes {

  datatype Option<+T> = None | Some(value: T)

  /** Why a FibOverlapStatsException was raised.  main.py formats these
      into messages; the model keeps only what the message is about. */
  datatype Reason =
    | FibonacciArgCount(found: nat)
    | OverlapArgCount(found: nat)
    | StatsArgCount(found: nat)
    | BlankLine
    | UnknownCommandName(name: string)
    | UnknownParsedCommand(name: string)

  datatype Exception =
    | FibOverlapStatsException(reason: Reason)
    | IndexError

  /** The result of a computation that may raise. Usable with `:-`. */
  datatype Outcome<+T> = Ok(value: T) | Raised(exception: Exception) {

    predicate IsFailure() {
      Raised?
    }

    function PropagateFailure<U>(): Outcome<U>
      requires Raised?
    {
      Raised(exception)
    }

    function Extract(): T
      requires Ok?
    {
      value
    }
  }

  /** Raising the interpreter's own exception for the given reason. */
  function Fatal<T>(reason: Reason): Outcome<T> {
    Raised(FibOverlapStatsException(reason))
  }

  /** True if `o` raised the interpreter's own exception for `reason`. */
  predicate RaisedFor<T>(o: Outcome<T>, reason: Reason) {
    o.Raised? && o.exception == FibOverlapStatsException(reason)
  }
}

=== FILE: overlap.dfy ===
/** The `overlap` command: parse `low,high` tokens and report whether any two
    of the intervals overlap.
 */
module Overlap {
  import opened Outcomes
  import opened Text

  /** An interval as written; `low <= high` is not required. */
  datatype Interval = Interval(low: int, high: int)

  /** Either the answer, or the "error" marker. */
  datatype OverlapResult = Overlaps(found: bool) | OverlapError

  /** The pairwise test of main.py, taken literally: it is the usual overlap
      test only when both intervals have `low <= high`. */
  predicate Touches(a: Interval, b: Interval) {
    a.low <= b.high && a.high >= b.low
  }

  /** The integer `x` lies in the interval. */
  predicate Contains(iv: Interval, x: int) {
    iv.low <= x <= iv.high
  }

  /** The test is symmetric, and for intervals written low first it is the
      usual overlap: the two share a point. */
  lemma TouchesMeansSharedPoint(a: Interval, b: Interval)
    ensures Touches(a, b) == Touches(b, a)
    ensures a.low <= a.high && b.low <= b.high ==>
              (Touches(a, b) <==> exists x :: Contains(a, x) && Contains(b, x))
  {
    if a.low <= a.high && b.low <= b.high && Touches(a, b) {
      var x := if a.low <= b.low then b.low else a.low;
      assert Contains(a, x) && Contains(b, x);
    }
  }

  /** An inverted interval can still touch: `0,10` and `5,3` pass the test
      though `5,3` holds no point. */
  lemma InvertedIntervalTouches()
    ensures Touches(Interval(0, 10), Interval(5, 3))
    ensures !exists x :: Contains(Interval(5, 3), x)
  {
  }

  /** Some two intervals at distinct positions touch. */
  predicate HasTouchingPair(rs: seq<Interval>) {
    exists i, j :: 0 <= i < j < |rs| && Touches(rs[i], rs[j])
  }

  /** The inner loop: does `rs[i]` touch some interval at position `j` or
      later? Stopping at the first hit is the loop's `break`. */
  function TouchesLater(rs: seq<Interval>, i: nat, j: nat): (found: bool)
    requires i < |rs| && j <= |rs|
    ensures found <==> exists q :: j <= q < |rs| && Touches(rs[i], rs[q])
    decreases |rs| - j
  {
    if j == |rs| then false
    else Touches(rs[i], rs[j]) || TouchesLater(rs, i, j + 1)
  }

  /** The outer loop over positions `i` onwards, each compared with the
      positions after it. */
  function ScanFrom(rs: seq<Interval>, i: nat): (found: bool)
    requires i <= |rs|
    ensures found <==> exists p, q :: i <= p < q < |rs| && Touches(rs[p], rs[q])
    decreases |rs| - i
  {
    if i == |rs| then false
    else TouchesLater(rs, i, i + 1) || ScanFrom(rs, i + 1)
  }

  /** The nested loops of main.py, from the first interval. */
  function AnyTouching(rs: seq<Interval>): (found: bool)
    ensures found <==> HasTouchingPair(rs)
  {
    ScanFrom(rs, 0)
  }

  /** Some interval of the multiset touches another occurrence in it. */
  ghost predicate MultisetHasTouchingPair(m: multiset<Interval>) {
    exists a, b :: a in m && b in m - multiset{a} && Touches(a, b)
  }

  /** Removing position `i` from a sequence removes one occurrence of its
      element from the multiset. */
  lemma RemoveAt(rs: seq<Interval>, i: nat)
    requires i < |rs|
    ensures multiset(rs) - multiset{rs[i]} == multiset(rs[..i] + rs[i + 1..])
  {
    assert rs == rs[..i] + [rs[i]] + rs[i + 1..];
  }

  lemma PairGivesMultisetPair(rs: seq<Interval>, i: nat, j: nat)
    requires i < j < |rs| && Touches(rs[i], rs[j])
    ensures MultisetHasTouchingPair(multiset(rs))
  {
    RemoveAt(rs, i);
    var rest := rs[..i] + rs[i + 1..];
    assert rest[j - 1] == rs[j];
    assert rs[j] in multiset(rs) - multiset{rs[i]};
    assert rs[i] in multiset(rs);
  }

  lemma MultisetPairGivesPair(rs: seq<Interval>, a: Interval, b: Interval)
    requires a in multiset(rs) && b in multiset(rs) - multiset{a} && Touches(a, b)
    ensures HasTouchingPair(rs)
  {
    var i :| 0 <= i < |rs| && rs[i] == a;
    RemoveAt(rs, i);
    var rest := rs[..i] + rs[i + 1..];
    assert b in multiset(rest);
    var k :| 0 <= k < |rest| && rest[k] == b;
    if k < i {
      assert rs[k] == b;
      assert Touches(rs[k], rs[i]);
    } else {
      assert rs[k + 1] == b;
      assert Touches(rs[i], rs[k + 1]);
    }
  }

  /** Whether a touching pair exists depends only on the multiset of
      intervals, not on their order. */
  lemma TouchingPairIsOrderFree(rs: seq<Interval>)
    ensures HasTouchingPair(rs) <==> MultisetHasTouchingPair(multiset(rs))
  {
    if HasTouchingPair(rs) {
      var i, j :| 0 <= i < j < |rs| && Touches(rs[i], rs[j]);
      PairGivesMultisetPair(rs, i, j);
    }
    if MultisetHasTouchingPair(multiset(rs)) {
      var a, b :| a in multiset(rs) && b in multiset(rs) - multiset{a} && Touches(a, b);
      MultisetPairGivesPair(rs, a, b);
    }
  }

  /** Reordering the intervals does not change the answer. */
  lemma AnyTouchingIgnoresOrder(rs: seq<Interval>, rs': seq<Interval>)
    requires multiset(rs) == multiset(rs')
    ensures AnyTouching(rs) == AnyTouching(rs')
  {
    TouchingPairIsOrderFree(rs);
    TouchingPairIsOrderFree(rs');
  }

  /** One `low,high` token, as main.py reads it: split on commas, convert
      the first piece (a ValueError gives `None`), then take the second piece,
      which raises IndexError when there is no comma, and convert it. Pieces
      after the second are never looked at. */
  function ParseInterval(token: string): (r: Outcome<Option<Interval>>)
    ensures r.Raised? <==> ',' !in token && ParseInt(token).Some?
    ensures r.Raised? ==> r.exception == IndexError
    ensures r == Ok(None) <==>
              ParseInt(Split(token, ',')[0]).None? || (',' in token && ParseInt(Split(token, ',')[1]).None?)
    ensures r.Ok? && r.value.Some? ==>
              |Split(token, ',')| >= 2 &&
              Some(r.value.value.low) == ParseInt(Split(token, ',')[0]) &&
              Some(r.value.value.high) == ParseInt(Split(token, ',')[1])
  {
    var parts := Split(token, ',');
    JoinSplit(token, ',');
    match ParseInt(parts[0])
    case None => Ok(None)
    case Some(low) =>
      if |parts| < 2 then Raised(IndexError)
      else
        match ParseInt(parts[1])
        case None => Ok(None)
        case Some(high) => Ok(Some(Interval(low, high)))
  }

  /** The textual form `low,high` of an interval. */
  function FormatInterval(iv: Interval): string {
    IntToString(iv.low) + "," + IntToString(iv.high)
  }

  /** Reading a formatted interval gives it back, whatever follows a second
      comma. */
  lemma ParseFormattedInterval(iv: Interval, extra: seq<string>)
    ensures ParseInterval(FormatInterval(iv)) == Ok(Some(iv))
    ensures ParseInterval(Join([IntToString(iv.low), IntToString(iv.high)] + extra, ',')) == Ok(Some(iv))
  {
    ParseIntToString(iv.low);
    ParseIntToString(iv.high);
    var lo := IntToString(iv.low);
    var hi := IntToString(iv.high);
    assert ',' !in lo && ',' !in hi;
    SplitAfterPiece(lo, hi, ',');
    SplitJoin([hi], ',');
    assert FormatInterval(iv) == lo + [','] + hi;
    var parts := [lo, hi] + extra;
    if |extra| == 0 {
      assert Join(parts, ',') == lo + [','] + hi;
    } else {
      assert Join(parts, ',') == lo + [','] + Join(parts[1..], ',');
      SplitAfterPiece(lo, Join(parts[1..], ','), ',');
      assert Join(parts[1..], ',') == hi + [','] + Join(extra, ',');
      SplitAfterPiece(hi, Join(extra, ','), ',');
    }
  }

  /** The tokens converted in order; the first token that fails decides the
      outcome: a ValueError gives `None`, an IndexError escapes. */
  function ParseIntervals(tokens: seq<string>): (r: Outcome<Option<seq<Interval>>>)
    ensures r.Raised? ==> r.exception == IndexError
    ensures r.Ok? && r.value.Some? ==>
              |r.value.value| == |tokens| &&
              forall k :: 0 <= k < |tokens| ==> ParseInterval(tokens[k]) == Ok(Some(r.value.value[k]))
    ensures (forall k :: 0 <= k < |tokens| ==> ParseInterval(tokens[k]).Ok? && ParseInterval(tokens[k]).value.Some?)
              ==> r.Ok? && r.value.Some?
    decreases |tokens|
  {
    if |tokens| == 0 then Ok(Some([]))
    else
      var first :- ParseInterval(tokens[0]);
      match first
      case None => Ok(None)
      case Some(iv) =>
        var rest :- ParseIntervals(tokens[1..]);
        match rest
        case None => Ok(None)
        case Some(ivs) => Ok(Some([iv] + ivs))
  }

  /** If every token before position `k` converts and token `k` does not,
      token `k` decides: its ValueError makes the marker, its IndexError
      escapes, whatever the later tokens hold. */
  lemma {:induction false} FirstFailingTokenDecides(tokens: seq<string>, k: nat)
    requires k < |tokens|
    requires forall m :: 0 <= m < k ==> ParseInterval(tokens[m]).Ok? && ParseInterval(tokens[m]).value.Some?
    requires !(ParseInterval(tokens[k]).Ok? && ParseInterval(tokens[k]).value.Some?)
    ensures ParseIntervals(tokens) == (if ParseInterval(tokens[k]).Raised? then Raised(IndexError) else Ok(None))
    decreases k
  {
    if k > 0 {
      assert ParseInterval(tokens[0]).Ok? && ParseInterval(tokens[0]).value.Some?;
      var tail := tokens[1..];
      assert forall m :: 0 <= m < k - 1 ==> tail[m] == tokens[m + 1];
      FirstFailingTokenDecides(tail, k - 1);
    }
  }

  /** The `overlap` evaluator: at least two tokens, else fatal; any token
      failing to convert gives the marker (or escapes as IndexError, see
      `ParseInterval`); otherwise whether two intervals touch. */
  function CalculateOverlap(args: seq<string>): (r: Outcome<OverlapResult>)
    ensures RaisedFor(r, OverlapArgCount(|args|)) <==> |args| < 2
    ensures r.Raised? ==> |args| < 2 || r.exception == IndexError
    ensures |args| >= 2 && ParseIntervals(args).Raised? ==> r == Raised(IndexError)
    ensures |args| >= 2 && ParseIntervals(args).Ok? && ParseIntervals(args).value.Some? ==>
              r == Ok(Overlaps(HasTouchingPair(ParseIntervals(args).value.value)))
    ensures |args| >= 2 && ParseIntervals(args) == Ok(None) ==> r == Ok(OverlapError)
  {
    if |args| < 2 then Fatal(OverlapArgCount(|args|))
    else
      var parsed :- ParseIntervals(args);
      match parsed
      case None => Ok(OverlapError)
      case Some(rs) => Ok(Overlaps(AnyTouching(rs)))
  }

  /** With two well-formed tokens the answer is the pairwise test itself. */
  lemma OverlapOfTwo(t0: string, t1: string, a: Interval, b: Interval)
    requires ParseInterval(t0) == Ok(Some(a)) && ParseInterval(t1) == Ok(Some(b))
    ensures CalculateOverlap([t0, t1]) == Ok(Overlaps(Touches(a, b)))
  {
    var r := ParseIntervals([t0, t1]);
    assert r.Ok? && r.value.Some?;
    var rs := r.value.value;
    assert rs[0] == a && rs[1] == b;
    assert HasTouchingPair(rs) == Touches(a, b);
  }

  lemma ParseOneFive()
    ensures ParseInterval("1,5") == Ok(Some(Interval(1, 5)))
  {
    ParseFormattedInterval(Interval(1, 5), []);
    assert FormatInterval(Interval(1, 5)) == "1,5";
  }

  /** `overlap 1,5 6,10` gives no overlap. */
  lemma OverlapExampleDisjoint()
    ensures CalculateOverlap(["1,5", "6,10"]) == Ok(Overlaps(false))
  {
    ParseOneFive();
    assert ParseInterval("6,10") == Ok(Some(Interval(6, 10))) by {
      ParseFormattedInterval(Interval(6, 10), []);
      assert NatToString(10) == "10";
      assert FormatInterval(Interval(6, 10)) == "6,10";
    }
    OverlapOfTwo("1,5", "6,10", Interval(1, 5), Interval(6, 10));
  }

  /** `overlap 1,5 4,10` gives an overlap. */
  lemma OverlapExampleOverlapping()
    ensures CalculateOverlap(["1,5", "4,10"]) == Ok(Overlaps(true))
  {
    ParseOneFive();
    assert ParseInterval("4,10") == Ok(Some(Interval(4, 10))) by {
      ParseFormattedInterval(Interval(4, 10), []);
      assert NatToString(10) == "10";
      assert FormatInterval(Interval(4, 10)) == "4,10";
    }
    OverlapOfTwo("1,5", "4,10", Interval(1, 5), Interval(4, 10));
  }

  /** A single interval is fatal; a word inside an interval gives the
      marker. */
  lemma OverlapRejects()
    ensures RaisedFor(CalculateOverlap(["1,2"]), OverlapArgCount(1))
    ensures CalculateOverlap(["1,2", "x,3"]) == Ok(OverlapError)
  {
    assert ParseInterval("1,2") == Ok(Some(Interval(1, 2))) by {
      ParseFormattedInterval(Interval(1, 2), []);
      assert FormatInterval(Interval(1, 2)) == "1,2";
    }
    assert ParseInterval("x,3") == Ok(None) by {
      assert Split("x,3", ',')[0] == "x";
    }
    FirstFailingTokenDecides(["1,2", "x,3"], 1);
  }

  /** With bad tokens the order of the arguments matters, since the first
      failing token decides: `5 x,1` lets IndexError escape, `x,1 5` gives
      the marker. */
  lemma ArgumentOrderMattersForBadTokens()
    ensures CalculateOverlap(["5", "x,1"]) == Raised(IndexError)
    ensures CalculateOverlap(["x,1", "5"]) == Ok(OverlapError)
  {
    assert IsDigits("5");
    assert ParseInterval("5").Raised?;
    assert Split("x,1", ',')[0] == "x";
    assert !IsDigit('x');
    assert ParseInterval("x,1") == Ok(None);
    FirstFailingTokenDecides(["5", "x,1"], 0);
    FirstFailingTokenDecides(["x,1", "5"], 0);
  }
}

=== FILE: parser.dfy ===
/** The line parser: each input line becomes a command name and its
    arguments, split on single spaces; only three names are accepted.
 */
module Parser {
  import opened Outcomes
  import opened Text

  const FibonacciName: string := "fibonacci"
  const OverlapName: string := "overlap"
  const StatsName: string := "stats"
  const CommandNames: set<string> := {FibonacciName, OverlapName, StatsName}

  /** A line whose name is known; the arguments are not checked yet. */
  datatype Command = Command(name: string, args: seq<string>)

  /** The line a command came from: name and arguments joined by spaces. */
  function Unparse(cmd: Command): string {
    Join([cmd.name] + cmd.args, ' ')
  }

  /** No piece of the command holds a space, as after a split on spaces. */
  predicate SpaceFree(cmd: Command) {
    ' ' !in cmd.name && forall k :: 0 <= k < |cmd.args| ==> ' ' !in cmd.args[k]
  }

  /** One line: the first space-separated piece is the name, the others
      (empty ones included) the arguments. An unknown name is fatal. The
      blank-line case cannot arise, since a split always has a piece; an
      empty line has the empty name and is rejected as unknown. */
  function ParseLine(line: string): (r: Outcome<Command>)
    ensures r.Ok? ==> r.value.name in CommandNames && SpaceFree(r.value) && Unparse(r.value) == line
    ensures r.Raised? ==> r.exception.FibOverlapStatsException? && r.exception.reason.UnknownCommandName?
    ensures r.Raised? ==> r.exception.reason.name !in CommandNames
  {
    var parts := Split(line, ' ');
    JoinSplit(line, ' ');
    if |parts| == 0 then Fatal(BlankLine)
    else if parts[0] in CommandNames then
      assert parts == [parts[0]] + parts[1..];
      Ok(Command(parts[0], parts[1..]))
    else Fatal(UnknownCommandName(parts[0]))
  }

  /** Parsing the text of a space-free command gives it back when its name
      is known, and rejects exactly that name otherwise. */
  lemma ParseUnparse(cmd: Command)
    requires SpaceFree(cmd)
    ensures cmd.name in CommandNames ==> ParseLine(Unparse(cmd)) == Ok(cmd)
    ensures cmd.name !in CommandNames ==> RaisedFor(ParseLine(Unparse(cmd)), UnknownCommandName(cmd.name))
  {
    var parts := [cmd.name] + cmd.args;
    forall k | 0 <= k < |parts|
      ensures ' ' !in parts[k]
    {
      if k > 0 {
        assert parts[k] == cmd.args[k - 1];
      }
    }
    SplitJoin(parts, ' ');
  }

  /** An empty line is reported as an unknown command with the empty name. */
  lemma BlankLineIsUnknownCommand()
    ensures RaisedFor(ParseLine(""), UnknownCommandName(""))
  {
    ParseUnparse(Command("", []));
    assert Unparse(Command("", [])) == "";
  }

  /** Every line, in order; the first line that fails decides the error. */
  function ParseLines(lines: seq<string>): (r: Outcome<seq<Command>>)
    ensures r.Ok? <==> forall k :: 0 <= k < |lines| ==> ParseLine(lines[k]).Ok?
    ensures r.Ok? ==> |r.value| == |lines| && forall k :: 0 <= k < |lines| ==> ParseLine(lines[k]) == Ok(r.value[k])
    ensures r.Raised? ==> r.exception.FibOverlapStatsException? && r.exception.reason.UnknownCommandName?
    decreases |lines|
  {
    if |lines| == 0 then Ok([])
    else
      var cmd :- ParseLine(lines[0]);
      var rest :- ParseLines(lines[1..]);
      assert forall k :: 1 <= k < |lines| ==> lines[k] == lines[1..][k - 1];
      Ok([cmd] + rest)
  }

  /** If lines before `k` parse and line `k` does not, the parse fails with
      line `k`'s error, whatever the later lines hold. */
  lemma {:induction false} FirstBadLineDecides(lines: seq<string>, k: nat)
    requires k < |lines|
    requires forall m :: 0 <= m < k ==> ParseLine(lines[m]).Ok?
    requires ParseLine(lines[k]).Raised?
    ensures ParseLines(lines) == Raised(ParseLine(lines[k]).exception)
    decreases k
  {
    if k > 0 {
      assert ParseLine(lines[0]).Ok?;
      var tail := lines[1..];
      assert forall m :: 0 <= m < k - 1 ==> tail[m] == lines[m + 1];
      FirstBadLineDecides(tail, k - 1);
    }
  }
}

=== FILE: program.dfy ===
/** One run of the interpreter: parse every line, then handle every command,
    then return the joined output. Reading the input and printing the result
    are left to the caller.
 */
module Program {
  import opened Outcomes
  import opened Text
  import opened Parser
  import opened Dispatcher

  /** All lines are parsed before any command is handled; any exception,
      from parsing or from handling, ends the run with no output at all. */
  function Run(lines: seq<string>): (r: Outcome<string>)
  {
    var cmds :- ParseLines(lines);
    HandleCommands(cmds)
  }

  /** A successful run over at least one line gives exactly one output line
      per input line, in order; each is the output of that line's command
      given the commands before it. */
  lemma RunOutputLines(lines: seq<string>)
    requires |lines| >= 1 && Run(lines).Ok?
    ensures |Split(Run(lines).value, '\n')| == |lines|
    ensures forall k :: 0 <= k < |lines| ==>
              ParseLine(lines[k]).Ok? &&
              var cmds := ParseLines(lines).value;
              HandleCommand(cmds[k], Tally(Counters(0, 0), cmds[..k])).Ok? &&
              Split(Run(lines).value, '\n')[k] == HandleCommand(cmds[k], Tally(Counters(0, 0), cmds[..k])).value.0
  {
    var cmds := ParseLines(lines).value;
    OutputSplitsIntoLines(cmds);
    HandleAllLineByLine(cmds, Counters(0, 0));
  }

  /** A line with an unknown name stops the run with its own error, even
      when an earlier command would raise while being handled: parsing
      finishes before handling starts. */
  lemma ParsingPrecedesHandling(lines: seq<string>, k: nat)
    requires k < |lines|
    requires forall m :: 0 <= m < k ==> ParseLine(lines[m]).Ok?
    requires ParseLine(lines[k]).Raised?
    ensures Run(lines) == Raised(ParseLine(lines[k]).exception)
    ensures RaisedFor(Run(lines), UnknownCommandName(Split(lines[k], ' ')[0]))
  {
    FirstBadLineDecides(lines, k);
    JoinSplit(lines[k], ' ');
  }

  /** The dispatcher's fall-through for an unrecognised parsed command is
      never reached. */
  lemma RunNeverReachesFallThrough(lines: seq<string>)
    ensures !(Run(lines).Raised? && Run(lines).exception.FibOverlapStatsException? &&
              Run(lines).exception.reason.UnknownParsedCommand?)
  {
    var parsed := ParseLines(lines);
    if parsed.Ok? {
      var cmds := parsed.value;
      assert forall k :: 0 <= k < |cmds| ==> ParseLine(lines[k]) == Ok(cmds[k]);
      KnownNamesAreAlwaysRouted(cmds, Counters(0, 0));
    }
  }

  /** No run reports a blank line: an empty line is an unknown command. */
  lemma RunNeverReportsBlankLine(lines: seq<string>)
    ensures !RaisedFor(Run(lines), BlankLine)
  {
    var parsed := ParseLines(lines);
    if parsed.Ok? {
      HandleAllLineByLine(parsed.value, Counters(0, 0));
    }
  }
}

=== FILE: scenarios.dfy ===
/** Whole runs over small inputs, worked through the general lemmas: a
    Fibonacci call followed by `stats`, a marker result that is still
    counted, and a run that a fatal argument count empties.
 */
module Scenarios {
  import opened Outcomes
  import opened Text
  import opened Parser
  import opened Fibonacci
  import opened Stats
  import opened Serialize
  import opened Dispatcher
  import opened Program

  /** Two lines that parse give two commands. */
  lemma ParseTwoLines(l0: string, l1: string, c0: Command, c1: Command)
    requires ParseLine(l0) == Ok(c0) && ParseLine(l1) == Ok(c1)
    ensures ParseLines([l0, l1]) == Ok([c0, c1])
  {
    var lines := [l0, l1];
    assert ParseLine(lines[0]).Ok? && ParseLine(lines[1]).Ok?;
    var r := ParseLines(lines);
    assert r.Ok?;
    assert |r.value| == 2;
    assert ParseLine(lines[0]) == Ok(r.value[0]);
    assert ParseLine(lines[1]) == Ok(r.value[1]);
    assert r.value == [c0, c1];
  }

  /** Two commands handled one after the other, the second seeing the
      counters the first left. */
  lemma HandleTwoCommands(c0: Command, c1: Command, out0: string, out1: string, k1: Counters, k2: Counters)
    requires HandleCommand(c0, Counters(0, 0)) == Ok((out0, k1))
    requires HandleCommand(c1, k1) == Ok((out1, k2))
    ensures HandleAll([c0, c1], Counters(0, 0)) == Ok([out0, out1])
  {
    var cmds := [c0, c1];
    HandleAllSucceedsLineByLine(cmds, Counters(0, 0));
    assert cmds[..0] == [] && cmds[..1] == [c0];
    assert Tally(Counters(0, 0), []) == Counters(0, 0);
    assert Tally(Counters(0, 0), [c0]) == k1;
    assert HandleCommand(cmds[0], Tally(Counters(0, 0), cmds[..0])).Ok?;
    assert HandleCommand(cmds[1], Tally(Counters(0, 0), cmds[..1])).Ok?;
    var r := HandleAll(cmds, Counters(0, 0));
    assert r.Ok?;
    assert |r.value| == 2;
    assert r.value == [out0, out1];
  }

  /** A run whose lines parse and whose commands all succeed outputs their
      lines joined by newlines. */
  lemma RunJoinsOutputs(lines: seq<string>, cmds: seq<Command>, outs: seq<string>)
    requires ParseLines(lines) == Ok(cmds) && HandleAll(cmds, Counters(0, 0)) == Ok(outs)
    ensures Run(lines) == Ok(Join(outs, '\n'))
  {
  }

  lemma ParseFibonacciLine(arg: string)
    requires ' ' !in arg
    ensures ParseLine(FibonacciName + " " + arg) == Ok(Command(FibonacciName, [arg]))
  {
    var cmd := Command(FibonacciName, [arg]);
    ParseUnparse(cmd);
    assert [cmd.name] + cmd.args == [FibonacciName, arg];
    assert [FibonacciName, arg][1..] == [arg];
    assert Join([FibonacciName, arg], ' ') == FibonacciName + [' '] + arg;
  }

  lemma HandleFibonacciOne()
    ensures HandleCommand(Command(FibonacciName, ["1"]), Counters(0, 0)) == Ok(("0 1 1", Counters(1, 0)))
  {
    FibonacciOfOne();
    assert SerializeFibonacci(Terms([0, 1, 1])) == "0 1 1" by {
      assert TermStrings([0, 1, 1]) == ["0", "1", "1"];
    }
    NamesDistinct();
    assert [Command(FibonacciName, ["1"])][1..] == [];
  }

  lemma HandleFibonacciWord()
    ensures HandleCommand(Command(FibonacciName, ["abc"]), Counters(0, 0)) == Ok(("error", Counters(1, 0)))
  {
    FibonacciRejects();
    NamesDistinct();
    assert [Command(FibonacciName, ["abc"])][1..] == [];
  }

  lemma ParseStatsLine()
    ensures ParseLine("stats") == Ok(Command(StatsName, []))
  {
    ParseUnparse(Command(StatsName, []));
    assert Unparse(Command(StatsName, [])) == "stats";
  }

  lemma HandleStatsLine(c: Counters)
    ensures HandleCommand(Command(StatsName, []), c) ==
              Ok((NatToString(c.fibonacciCalls) + " " + NatToString(c.overlapCalls), c))
  {
    NamesDistinct();
    assert [Command(StatsName, [])][1..] == [];
  }

  lemma JoinFibonacciStats()
    ensures Join(["0 1 1", "1 0"], '\n') == "0 1 1\n1 0"
  {
    assert ["0 1 1", "1 0"][1..] == ["1 0"];
  }

  lemma JoinMarkerStats()
    ensures Join(["error", "1 0"], '\n') == "error\n1 0"
  {
    assert ["error", "1 0"][1..] == ["1 0"];
  }

  lemma ParseFibonacciOneLine()
    ensures ParseLine("fibonacci 1") == Ok(Command(FibonacciName, ["1"]))
  {
    ParseFibonacciLine("1");
    assert FibonacciName + " " + "1" == "fibonacci 1";
  }

  lemma ParseFibonacciWordLine()
    ensures ParseLine("fibonacci abc") == Ok(Command(FibonacciName, ["abc"]))
  {
    ParseFibonacciLine("abc");
    assert FibonacciName + " " + "abc" == "fibonacci abc";
  }

  lemma HandleStatsAfterOne()
    ensures HandleCommand(Command(StatsName, []), Counters(1, 0)) == Ok(("1 0", Counters(1, 0)))
  {
    HandleStatsLine(Counters(1, 0));
    assert NatToString(1) == "1" && NatToString(0) == "0";
    assert "1" + " " + "0" == "1 0";
  }

  /** `fibonacci 1` then `stats` outputs `0 1 1` then `1 0`. */
  lemma RunFibonacciThenStats()
    ensures Run(["fibonacci 1", "stats"]) == Ok("0 1 1\n1 0")
  {
    ParseFibonacciOneLine();
    ParseStatsLine();
    ParseTwoLines("fibonacci 1", "stats", Command(FibonacciName, ["1"]), Command(StatsName, []));
    HandleFibonacciOne();
    HandleStatsAfterOne();
    HandleTwoCommands(Command(FibonacciName, ["1"]), Command(StatsName, []), "0 1 1", "1 0", Counters(1, 0), Counters(1, 0));
    RunJoinsOutputs(["fibonacci 1", "stats"], [Command(FibonacciName, ["1"]), Command(StatsName, [])], ["0 1 1", "1 0"]);
    JoinFibonacciStats();
  }

  /** `fibonacci abc` gives the marker and is still counted by `stats`. */
  lemma RunMarkerStillCounted()
    ensures Run(["fibonacci abc", "stats"]) == Ok("error\n1 0")
  {
    ParseFibonacciWordLine();
    ParseStatsLine();
    ParseTwoLines("fibonacci abc", "stats", Command(FibonacciName, ["abc"]), Command(StatsName, []));
    HandleFibonacciWord();
    HandleStatsAfterOne();
    HandleTwoCommands(Command(FibonacciName, ["abc"]), Command(StatsName, []), "error", "1 0", Counters(1, 0), Counters(1, 0));
    RunJoinsOutputs(["fibonacci abc", "stats"], [Command(FibonacciName, ["abc"]), Command(StatsName, [])], ["error", "1 0"]);
    JoinMarkerStats();
  }

  lemma ParseStatsFiveLine()
    ensures ParseLine("stats 5") == Ok(Command(StatsName, ["5"]))
  {
    ParseUnparse(Command(StatsName, ["5"]));
    assert [StatsName] + ["5"] == ["stats", "5"];
    assert ["stats", "5"][1..] == ["5"];
    assert Unparse(Command(StatsName, ["5"])) == "stats" + [' '] + "5";
    assert "stats" + [' '] + "5" == "stats 5";
  }

  lemma HandleStatsFive(c: Counters)
    ensures HandleCommand(Command(StatsName, ["5"]), c) == Fatal(StatsArgCount(1))
  {
    NamesDistinct();
  }

  /** A first command that succeeds followed by one that raises: the whole
      fold raises, and the first command's line is lost with it. */
  lemma SecondCommandRaises(c0: Command, c1: Command, out0: string, k1: Counters, e: Exception)
    requires HandleCommand(c0, Counters(0, 0)) == Ok((out0, k1))
    requires HandleCommand(c1, k1) == Raised(e)
    ensures HandleAll([c0, c1], Counters(0, 0)) == Raised(e)
  {
    assert [c0, c1][1..] == [c1];
    assert [c1][1..] == [];
  }

  /** `fibonacci 1` then `stats 5`: the fatal argument count of the second
      command empties the whole output, the first command's line included. */
  lemma RunFatalArgumentCountEmptiesOutput()
    ensures Run(["fibonacci 1", "stats 5"]) == Fatal(StatsArgCount(1))
  {
    ParseFibonacciOneLine();
    ParseStatsFiveLine();
    ParseTwoLines("fibonacci 1", "stats 5", Command(FibonacciName, ["1"]), Command(StatsName, ["5"]));
    HandleFibonacciOne();
    HandleStatsFive(Counters(1, 0));
    SecondCommandRaises(Command(FibonacciName, ["1"]), Command(StatsName, ["5"]), "0 1 1", Counters(1, 0),
                        FibOverlapStatsException(StatsArgCount(1)));
  }
}

=== FILE: serialize.dfy ===
/** Turning each evaluator's result into its output line.
 */
module Serialize {
  import opened Outcomes
  import opened Text
  import opened Fibonacci
  import opened Overlap
  import opened Stats

  const ErrorMarker: string := "error"

  /** The decimal form of each term. */
  function TermStrings(terms: seq<nat>): (parts: seq<string>)
    ensures |parts| == |terms|
    ensures forall k :: 0 <= k < |parts| ==> IsDigits(parts[k]) && ParseInt(parts[k]) == Some(terms[k])
    ensures forall k :: 0 <= k < |parts| ==> |parts[k]| >= 1 && (parts[k][0] == '0' ==> parts[k] == "0")
    decreases |terms|
  {
    if |terms| == 0 then []
    else
      ParseIntToString(terms[0]);
      [NatToString(terms[0])] + TermStrings(terms[1..])
  }

  /** No list of terms prints as the marker: the empty list prints as the
      empty line, any other begins with a digit. */
  lemma TermsLineIsNotMarker(terms: seq<nat>)
    ensures Join(TermStrings(terms), ' ') != ErrorMarker
  {
    var line := Join(TermStrings(terms), ' ');
    if |terms| == 0 {
      assert line == "";
    } else {
      SplitJoin(TermStrings(terms), ' ');
      assert IsDigits(Split(line, ' ')[0]);
      JoinSplit(ErrorMarker, ' ');
      assert Split(ErrorMarker, ' ')[0] == ErrorMarker;
      assert !IsDigit(ErrorMarker[0]);
    }
  }

  /** The terms in decimal separated by single spaces; the marker passes
      through as `error`, and nothing else prints as `error`. */
  function SerializeFibonacci(r: FibonacciResult): (line: string)
    ensures line == ErrorMarker <==> r.FibonacciError?
    ensures '\n' !in line
  {
    match r
    case FibonacciError => ErrorMarker
    case Terms(terms) =>
      JoinAvoids(TermStrings(terms), ' ', '\n');
      TermsLineIsNotMarker(terms);
      Join(TermStrings(terms), ' ')
  }

  /** Splitting a serialized sequence on spaces and reading each piece as an
      integer gives back the terms. */
  lemma SerializedTermsRoundTrip(terms: seq<nat>)
    requires |terms| >= 1
    ensures Split(SerializeFibonacci(Terms(terms)), ' ') == TermStrings(terms)
    ensures |Split(SerializeFibonacci(Terms(terms)), ' ')| == |terms|
    ensures forall k :: 0 <= k < |terms| ==> ParseInt(Split(SerializeFibonacci(Terms(terms)), ' ')[k]) == Some(terms[k])
  {
    SplitJoin(TermStrings(terms), ' ');
  }

  /** `str(result).lower()`: `true`, `false`, or the marker. */
  function SerializeOverlap(r: OverlapResult): (line: string)
    ensures line == "true" <==> r == Overlaps(true)
    ensures line == "false" <==> r == Overlaps(false)
    ensures line == ErrorMarker <==> r == OverlapError
    ensures '\n' !in line
  {
    match r
    case OverlapError => ErrorMarker
    case Overlaps(found) => if found then "true" else "false"
  }

  /** The two counts in decimal, separated by one space. */
  function SerializeStats(s: StatsResult): (line: string)
    ensures '\n' !in line
    ensures Split(line, ' ') == [NatToString(s.fibonacciCalls), NatToString(s.overlapCalls)]
  {
    var f := NatToString(s.fibonacciCalls);
    var o := NatToString(s.overlapCalls);
    SplitJoin([f, o], ' ');
    assert Join([f, o], ' ') == f + " " + o;
    f + " " + o
  }

  /** Reading a stats line back gives the two counts. */
  lemma SerializedStatsRoundTrip(s: StatsResult)
    ensures ParseInt(Split(SerializeStats(s), ' ')[0]) == Some(s.fibonacciCalls)
    ensures ParseInt(Split(SerializeStats(s), ' ')[1]) == Some(s.overlapCalls)
  {
    ParseIntToString(s.fibonacciCalls);
    ParseIntToString(s.overlapCalls);
  }
}

=== FILE: stats.dfy ===
/** The `stats` command: report how many `fibonacci` and `overlap` commands
    came before it.
 */
module Stats {
  import opened Outcomes

  datatype StatsResult = StatsResult(fibonacciCalls: nat, overlapCalls: nat)

  /** The `stats` evaluator: any argument at all is fatal; otherwise the two
      running counts are passed through unchanged. */
  function CalculateStats(args: seq<string>, fibonacciCalls: nat, overlapCalls: nat): (r: Outcome<StatsResult>)
    ensures r.Ok? <==> |args| == 0
    ensures r.Raised? ==> RaisedFor(r, StatsArgCount(|args|))
    ensures r.Ok? ==> r.value.fibonacciCalls == fibonacciCalls && r.value.overlapCalls == overlapCalls
  {
    if |args| != 0 then Fatal(StatsArgCount(|args|))
    else Ok(StatsResult(fibonacciCalls, overlapCalls))
  }
}

=== FILE: text.dfy ===
/** String handling the interpreter relies on: Python's `str.split(sep)` and
    `sep.join(parts)` for a one-character separator, `str(n)` for integers,
    and `int(s, base=10)` restricted to an optional sign and ASCII digits.
 */
module Text {
  import opened Outcomes

  /** `s.split(sep)` in Python: the pieces between separators, keeping empty
      pieces, so that an empty string gives one empty piece. */
  function Split(s: string, sep: char): (parts: seq<string>)
    ensures |parts| >= 1
    ensures forall k :: 0 <= k < |parts| ==> sep !in parts[k]
    ensures |parts| == 1 <==> sep !in s
    decreases |s|
  {
    if |s| == 0 then [""]
    else
      var rest := Split(s[1..], sep);
      if s[0] == sep then [""] + rest
      else [[s[0]] + rest[0]] + rest[1..]
  }

  /** `sep.join(parts)` in Python. */
  function Join(parts: seq<string>, sep: char): string
    decreases |parts|
  {
    if |parts| == 0 then ""
    else if |parts| == 1 then parts[0]
    else parts[0] + [sep] + Join(parts[1..], sep)
  }

  /** Joining the pieces of a split gives back the original string. */
  lemma {:induction false} JoinSplit(s: string, sep: char)
    ensures Join(Split(s, sep), sep) == s
    decreases |s|
  {
    if |s| > 0 {
      var rest := Split(s[1..], sep);
      JoinSplit(s[1..], sep);
      if s[0] == sep {
        assert Join(Split(s, sep), sep) == "" + [sep] + Join(rest, sep);
      } else if |rest| == 1 {
        assert Join(Split(s, sep), sep) == [s[0]] + rest[0];
      } else {
        assert Join(Split(s, sep), sep) == [s[0]] + rest[0] + [sep] + Join(rest[1..], sep);
        assert Join(rest, sep) == rest[0] + [sep] + Join(rest[1..], sep);
      }
      assert s == [s[0]] + s[1..];
    }
  }

  /** A piece that holds no separator splits into itself, and a separator
      after such a piece ends it. */
  lemma {:induction false} SplitAfterPiece(p: string, t: string, sep: char)
    requires sep !in p
    ensures Split(p + [sep] + t, sep) == [p] + Split(t, sep)
    decreases |p|
  {
    if |p| > 0 {
      SplitAfterPiece(p[1..], t, sep);
      assert (p + [sep] + t)[1..] == p[1..] + [sep] + t;
      assert [p[0]] + p[1..] == p;
    } else {
      assert p + [sep] + t == [sep] + t;
    }
  }

  /** Splitting a join recovers the pieces when none holds the separator. */
  lemma {:induction false} SplitJoin(parts: seq<string>, sep: char)
    requires |parts| >= 1
    requires forall k :: 0 <= k < |parts| ==> sep !in parts[k]
    ensures Split(Join(parts, sep), sep) == parts
    decreases |parts|
  {
    if |parts| == 1 {
      JoinSplit(parts[0], sep);
    } else {
      SplitJoin(parts[1..], sep);
      SplitAfterPiece(parts[0], Join(parts[1..], sep), sep);
      assert parts == [parts[0]] + parts[1..];
    }
  }

  /** A character that is neither the separator nor in any piece is not in
      the join. */
  lemma {:induction false} JoinAvoids(parts: seq<string>, sep: char, c: char)
    requires c != sep
    requires forall k :: 0 <= k < |parts| ==> c !in parts[k]
    ensures c !in Join(parts, sep)
    decreases |parts|
  {
    if |parts| > 1 {
      JoinAvoids(parts[1..], sep, c);
    }
  }

  predicate IsDigit(c: char) {
    '0' <= c <= '9'
  }

  /** A non-empty run of ASCII decimal digits. */
  predicate IsDigits(s: string) {
    |s| >= 1 && forall k :: 0 <= k < |s| ==> IsDigit(s[k])
  }

  function DigitChar(d: nat): (c: char)
    requires d < 10
    ensures IsDigit(c)
  {
    ('0' as int + d) as char
  }

  /** The value of a string of digits, most significant first. */
  function DigitsValue(s: string): nat
    requires forall k :: 0 <= k < |s| ==> IsDigit(s[k])
    decreases |s|
  {
    if |s| == 0 then 0
    else 10 * DigitsValue(s[..|s| - 1]) + DigitValue(s[|s| - 1])
  }

  function DigitValue(c: char): (d: nat)
    requires IsDigit(c)
    ensures d < 10
  {
    c as int - '0' as int
  }

  /** `str(n)` for a non-negative integer: its canonical decimal form. */
  function NatToString(n: nat): (s: string)
    ensures IsDigits(s)
    ensures s[0] == '0' ==> s == "0"
    decreases n
  {
    if n < 10 then [DigitChar(n)]
    else NatToString(n / 10) + [DigitChar(n % 10)]
  }

  /** `str(i)` for any integer. */
  function IntToString(i: int): (s: string)
    ensures |s| >= 1
    ensures forall k :: 0 <= k < |s| ==> IsDigit(s[k]) || (k == 0 && s[k] == '-')
    ensures s[0] == '-' <==> i < 0
  {
    if i < 0 then "-" + NatToString(-i) else NatToString(i)
  }

  /** `int(s, base=10)`: an optional `+` or `-` followed by one or more ASCII
      digits; anything else is the ValueError path, here `None`. */
  function ParseInt(s: string): (r: Option<int>)
    ensures r.Some? <==> IsDigits(s) || (|s| >= 2 && s[0] in "+-" && IsDigits(s[1..]))
    ensures IsDigits(s) ==> r.Some? && r.value >= 0
    ensures r.Some? && r.value < 0 ==> s[0] == '-'
  {
    if |s| >= 1 && (s[0] == '-' || s[0] == '+') then
      if IsDigits(s[1..]) then
        var magnitude: int := DigitsValue(s[1..]);
        var value: int := if s[0] == '-' then -magnitude else magnitude;
        Some(value)
      else None
    else if IsDigits(s) then Some(DigitsValue(s))
    else None
  }

  /** The value of a digit string does not change with a leading zero. */
  lemma {:induction false} DigitsValueLeadingZero(s: string)
    requires forall k :: 0 <= k < |s| ==> IsDigit(s[k])
    ensures forall k :: 0 <= k < |"0" + s| ==> IsDigit(("0" + s)[k])
    ensures DigitsValue("0" + s) == DigitsValue(s)
    decreases |s|
  {
    var z := "0" + s;
    assert forall k :: 0 <= k < |z| ==> IsDigit(z[k]) by {
      forall k | 0 <= k < |z|
        ensures IsDigit(z[k])
      {
        if k > 0 {
          assert z[k] == s[k - 1];
        }
      }
    }
    if |s| > 0 {
      DigitsValueLeadingZero(s[..|s| - 1]);
      assert z[..|z| - 1] == "0" + s[..|s| - 1];
      assert z[|z| - 1] == s[|s| - 1];
    }
  }

  /** As with Python's `int`, leading zeros and a leading `+` do not change
      the value of a string of digits: `int("007") == int("+7") == 7`. */
  lemma LeadingZeroOrPlusKeepsValue(s: string)
    requires IsDigits(s)
    ensures ParseInt("0" + s) == ParseInt(s)
    ensures ParseInt("+" + s) == ParseInt(s)
    ensures ParseInt("-" + s).Some? && ParseInt("-" + s).value + DigitsValue(s) == 0
    ensures ParseInt(s) == Some(DigitsValue(s))
  {
    DigitsValueLeadingZero(s);
    assert ("+" + s)[1..] == s;
    assert ("-" + s)[1..] == s;
  }

  /** Reading back the decimal form of a natural number gives the number. */
  lemma {:induction false} DigitsValueNatToString(n: nat)
    ensures DigitsValue(NatToString(n)) == n
    decreases n
  {
    if n >= 10 {
      DigitsValueNatToString(n / 10);
      var s := NatToString(n);
      assert s[..|s| - 1] == NatToString(n / 10);
    }
  }

  /** `int(str(i), 10) == i` for every integer. */
  lemma ParseIntToString(i: int)
    ensures ParseInt(IntToString(i)) == Some(i)
  {
    if i < 0 {
      DigitsValueNatToString(-i);
      assert IntToString(i)[1..] == NatToString(-i);
    } else {
      DigitsValueNatToString(i);
    }
  }
}
